=== FILE: README.md ===
# QQ OAuth2 driver — a Dafny model

This project models the QQ driver of a PHP social-login library
(`src/Drivers/QQ.php`). The driver signs a user in through QQ's OAuth2
endpoints. `getToken` exchanges the authorization code for an access token,
`getOpenId` asks for the user's open id, `getUserInfo` fetches the profile and
normalizes it, and `refreshToken` renews the token. Three small codecs sit
underneath:

- `_parse` decodes the token endpoint's `key=value&key=value` body.
- The open-id reply arrives wrapped as `callback( {...} );` and is unwrapped
  with `trim(substr(trim($res), 9, -2))`.
- `_checkError` turns a non-empty `error_code` into an exception.

The project has four files.

- `php.dfy` (module `Php`) holds the slice of PHP that the driver relies on:
  - a `Value` datatype for dynamically typed values;
  - `empty()` and truthiness;
  - string conversion for `.`;
  - `explode`, `trim` and `substr` (PHP 8 rules).
  - PHP strings are byte strings. The model writes one as a `string` with one
    character per byte (`Php.IsBytes`), so a UTF-8 `ä` appears as its two
    bytes, and character counts are PHP's byte counts.
- `wire.dfy` (module `Wire`) holds `_parse`, the open-id unwrap and
  `_checkError`. Each comes with its characterisation and round trips.
- `driver.dfy` (module `QQ`) is the driver as a state machine.
  - The object becomes an immutable `Driver` record.
  - Each public call becomes a function that returns a `Step`. A `Step` holds
    the record afterwards, the HTTP requests sent in order, and either the
    returned value or the exception's message.
  - An exception does not roll back the object. So a failed `Step` still
    carries what an inner call stored before the throw.
- `session.dfy` (module `Session`) states properties of call sequences:
  - memoization;
  - refresh behaviour;
  - complete sign-ins from a fresh driver.

The outside world is a parameter, `Env`, with four parts:

- the authorization code that `getCode()` delivers;
- the provider's raw reply text per request (for the token and open-id
  endpoints);
- the decoded reply per request (for the user-info and refresh endpoints, which
  the code indexes as arrays);
- `json_decode($s, true)` as an arbitrary function.

## Model

| member | source | states |
|---|---|---|
| Php.EmptyIsFalsyLiteral | src/Drivers/QQ.php:127 | `empty()` holds exactly for null, false, 0, "", "0" and the empty array |
| Php.NatTextRoundTrip | src/Drivers/QQ.php:128 | the decimal text an integer error code contributes to the message is a numeral without a leading zero and reads back to the code |
| Php.DecimalUnique | src/Drivers/QQ.php:128 | a numeral without a leading zero is the decimal text of the number it denotes, so the printed form of a code is unique |
| Php.IntText | src/Drivers/QQ.php:128 | an integer code prints as its numeral without a leading zero, after a minus sign when it is negative, and the numeral reads back to its magnitude |
| Php.Text | src/Drivers/QQ.php:128 | string conversion contributes nothing exactly for null, false and ""; `true` prints "1", an integer its signed numeral, a string itself, an array "Array" |
| Php.TextOfTruthy | src/Drivers/QQ.php:127-128 | a code that `empty()` rejects prints as a text that `empty()` also rejects: never "" and never "0" |
| Php.Explode | src/Drivers/QQ.php:82-83 | `explode` always yields at least one piece, so `list($k, $v)` always finds a key |
| Php.ExplodeSingle | src/Drivers/QQ.php:82-83 | `explode` yields one piece exactly when the separator does not occur, and that piece is then the whole string |
| Php.ExplodePiecesFree | src/Drivers/QQ.php:82-83 | no piece of `explode` contains the separator |
| Php.ImplodeExplode | src/Drivers/QQ.php:82 | joining the pieces of a body with the separator gives the body back |
| Php.ExplodePrefix | src/Drivers/QQ.php:83 | a separator-free prefix is glued onto the first piece of what follows |
| Php.ExplodeImplode | src/Drivers/QQ.php:82 | splitting a join of separator-free pieces gives the pieces back |
| Php.TrimLeft | src/Drivers/QQ.php:103 | `ltrim` never lengthens its input, and its result is empty or starts with a character other than a trim character |
| Php.TrimRight | src/Drivers/QQ.php:103 | `rtrim` never lengthens its input, and its result is empty or ends with a character other than a trim character |
| Php.Trim | src/Drivers/QQ.php:103 | `trim` never lengthens its input, and its result neither starts nor ends with a trim character |
| Php.TrimLeftMeaning | src/Drivers/QQ.php:103 | `ltrim` keeps the longest suffix that does not start with a trim character, and drops only trim characters |
| Php.TrimRightMeaning | src/Drivers/QQ.php:103 | `rtrim` keeps the longest prefix that does not end with a trim character, and drops only trim characters |
| Php.TrimLeftPadded | src/Drivers/QQ.php:103 | leading whitespace in front of a non-blank start is exactly what `ltrim` removes |
| Php.TrimRightPadded | src/Drivers/QQ.php:103 | trailing whitespace behind a non-blank end is exactly what `rtrim` removes |
| Php.TrimPadded | src/Drivers/QQ.php:103 | `trim` of a core padded on both sides with whitespace is the core |
| Php.TrimAllTrimChars | src/Drivers/QQ.php:103 | `trim` of whitespace alone is the empty string |
| Php.Substr | src/Drivers/QQ.php:103 | `substr` returns a slice starting at the resolved offset, no longer than a non-negative length asks for; offsets count characters, which are bytes for a byte string |
| Php.SubstrDropBothEnds | src/Drivers/QQ.php:103 | `substr($s, k, -j)` drops the first k and last j characters (bytes, for a byte string), or gives "" when the string is shorter than k + j |
| Wire.KeyOf | src/Drivers/QQ.php:83 | an item's key contains no `=`, is a prefix of the item, and is the whole item when the item has no `=` |
| Wire.ValueOf | src/Drivers/QQ.php:83-84 | an item's value is null exactly when the item has no `=`, and otherwise a string without `=` |
| Wire.ParseItemsKeys | src/Drivers/QQ.php:81-87 | the `foreach` yields exactly one entry per distinct item key |
| Wire.ParseItemsLastWins | src/Drivers/QQ.php:81-87 | each key's entry holds the value of the last item with that key |
| Wire.Parse | src/Drivers/QQ.php:79-88 | `_parse` never returns an empty array, and a body without `&` is one item mapped to its value |
| Wire.ParseMeaning | src/Drivers/QQ.php:79-88 | `_parse` maps exactly the keys of the `&`-separated items, and each key gets the value of its last item |
| Wire.ItemSegments | src/Drivers/QQ.php:83-84 | an item `k=v`, possibly followed by further `=`-segments, has key k and value v |
| Wire.ParseItemsOfPairs | src/Drivers/QQ.php:81-85 | decoding the items of plain pairs gives the pairs' map, with later pairs overriding earlier ones |
| Wire.ParseEncode | src/Drivers/QQ.php:79-88 | round trip: a body written from plain key/value pairs decodes to the map of those pairs |
| Wire.ParseTwoPairs | src/Drivers/QQ.php:79-88 | a body `k1=v1&k2=v2` (such as `a=1&b=2`) decodes to `{k1: v1, k2: v2}`, the second pair winning when the keys coincide |
| Wire.ParseRepeatedKey | src/Drivers/QQ.php:82-84 | in `k=v1&k=v2=x` the last item wins and the third segment is dropped, giving `{k: v2}` |
| Wire.ParseBareItem | src/Drivers/QQ.php:83-84 | an item without `=` maps its key to null |
| Wire.Unwrap | src/Drivers/QQ.php:103 | the text handed to `json_decode` is "" or is at least 11 characters shorter than the reply and neither starts nor ends with a trim character |
| Wire.UnwrapShape | src/Drivers/QQ.php:103 | the unwrap keeps the trimmed body minus 9 leading and 2 trailing characters (bytes, for a byte string), trimmed again, or "" when the trimmed body is shorter than 11 |
| Wire.UnwrapCallback | src/Drivers/QQ.php:103 | any 9-byte prefix and 2-byte suffix around trimmed JSON text, padded with whitespace anywhere, unwraps to that text |
| Wire.UnwrapStandardReply | src/Drivers/QQ.php:103 | `callback( ` + json + ` );` unwraps to json |
| Wire.UnwrapExample | src/Drivers/QQ.php:102-103 | the sample reply `callback( {"openid":"O1"} );` unwraps to `{"openid":"O1"}` |
| Wire.CheckError | src/Drivers/QQ.php:125-130 | `_checkError` throws exactly when `error_code` is present and not empty (`HasError`); the message is the string form of `error_code`, which is neither "" nor "0", then ` : `, then the string form of `error` (null when missing) |
| Wire.CheckErrorPassesFalsyCodes | src/Drivers/QQ.php:125-130 | `_checkError` passes exactly when `error_code` is absent or one of PHP's falsy values |
| Wire.CheckErrorNumericCode | src/Drivers/QQ.php:128 | a non-zero integer code throws with its numeral without a leading zero, after a minus sign when negative, then ` : `, then the description |
| Wire.CheckErrorTextCode | src/Drivers/QQ.php:127-128 | a textual code throws `code : error`, or `code : ` when the reply's `error` is missing or null |
| Wire.CheckErrorOtherCodes | src/Drivers/QQ.php:127-128 | a code `true` throws `1 : …` and a non-empty array code throws `Array : …` |
| QQ.Init | src/Drivers/QQ.php:11-24 | a fresh driver holds the configured credentials and state, no token, refresh token, open id or user record, and no cached reply |
| QQ.Config | src/Drivers/QQ.php:67 | `config` never touches the user record or the reply cache; each of the seven known keys present in the reply sets its field and every other field keeps its value; a reply without a known key changes nothing |
| QQ.TokenRequest | src/Drivers/QQ.php:47-55 | the token request carries the code and `grant_type=authorization_code`, and carries `state` exactly when the state is not empty |
| QQ.MeRequest | src/Drivers/QQ.php:99-102 | the open-id request goes to `oauth2.0/me` and carries the access token and nothing else |
| QQ.UserRequest | src/Drivers/QQ.php:144-149 | the user-info request goes to the full user-info URL and carries exactly the token, the app id as `oauth_consumer_key`, and the open id |
| QQ.RefreshRequest | src/Drivers/QQ.php:185-191 | the refresh request goes to the token endpoint and carries exactly `appid`, `grant_type=refresh_token` and the held refresh token |
| QQ.GetToken | src/Drivers/QQ.php:44-71 | a held token is returned without a request; otherwise exactly one token request is sent; an error reply throws with the driver unchanged; a good reply is cached under "token" and merged into the fields by `config`, and nothing else changes |
| QQ.FetchOpenId | src/Drivers/QQ.php:99-113 | one request to the "me" endpoint; a decode that is not an array throws with the raw body in the message; an error code throws with `_checkError`'s message; either way nothing is stored; otherwise the reply is merged into the fields by `config`, nothing else changing, and the open id returned |
| QQ.GetOpenId | src/Drivers/QQ.php:96-116 | a held open id is returned without a request; otherwise a failing `getToken` is passed on, and a successful one is followed by the open-id stage with its token, whose result and driver `getOpenId` returns |
| QQ.UserRecordIsTruthy | src/Drivers/QQ.php:143 | a normalized user record is never empty, so the guard sees it as set |
| QQ.FormatUserInfo | src/Drivers/QQ.php:165-175 | `getOpenId` runs first and its requests are the only ones sent; its failure is passed on; otherwise the record, stored and returned with nothing else changed, has exactly uid, uname, avatar and email: the open id, the nickname, the `figureurl_qq_2` avatar, and "" |
| QQ.GetUserInfo | src/Drivers/QQ.php:141-163 | a held record is returned without a request; a failing `getToken` or `getOpenId` is passed on with the requests it sent; otherwise the requests sent begin with those of `getToken`, then `getOpenId`, then the user-info request; a success caches the user-info reply under "user"; an error in the user-info reply throws `_checkError`'s message with the driver as `getOpenId` left it; an error-free reply with a non-empty open id succeeds; a successful fetch stores a non-empty normalized record; a failure leaves the record as it was |
| QQ.RefreshToken | src/Drivers/QQ.php:183-200 | always exactly one refresh request; an error reply throws `_checkError`'s message with the driver unchanged; otherwise the reply is cached under "refresh" and merged into the fields by `config`, nothing else changing, and the driver is returned |
| Session.GetOpenIdWithCachedToken | src/Drivers/QQ.php:98-102 | with no open id held and the token held, `getOpenId` sends exactly the "me" request carrying that token |
| Session.GetUserInfoWithCachedIds | src/Drivers/QQ.php:143-159 | with no record held and the token and open id held, `getUserInfo` sends exactly the user-info request; an error throws `_checkError`'s message and leaves the driver as it was; success caches the reply under "user" beside the record |
| Session.GetUserInfoAfterIds | src/Drivers/QQ.php:141-159 | with no record held, once `getToken` and `getOpenId` succeed with a non-empty open id, `getUserInfo` sends the requests `getToken` and `getOpenId` needed, in that order, then exactly the user-info request; it fails exactly on an error reply, with `_checkError`'s message and the driver as `getOpenId` left it, and otherwise caches the reply beside the new record |
| Session.EmptyOpenIdFetchedTwice | src/Drivers/QQ.php:141-175 | with no record or open id held but the token held, an open-id reply without error or `access_token` that leaves the open id empty, and an error-free user-info reply, `getUserInfo` sends the "me" request, the user-info request, and then the "me" request again from `_formatUserInfo` |
| Session.EmptyTokenReply | src/Drivers/QQ.php:44-88 | an empty token body is no error: it is cached as `{"": null}`, no field changes, the still-empty token is returned, and the next `getToken` fetches again |
| Session.GetTokenMemo | src/Drivers/QQ.php:46-70 | after a successful `getToken`, the next call is served without a request exactly when the token obtained is not empty |
| Session.GetOpenIdMemo | src/Drivers/QQ.php:98-115 | after a successful `getOpenId`, the next call is served without a request exactly when the open id obtained is not empty |
| Session.GetUserInfoMemo | src/Drivers/QQ.php:143-162 | after a successful `getUserInfo`, every later call returns the same record without a request, whatever the provider would answer |
| Session.RefreshThenGetToken | src/Drivers/QQ.php:183-200 | after a successful refresh that carries a non-empty token, `getToken` returns that token without a request |
| Session.RefreshKeepsUserInfo | src/Drivers/QQ.php:183-200 | a refresh, successful or not, leaves a held user record in place, and `getUserInfo` keeps returning it |
| Session.RefreshTwice | src/Drivers/QQ.php:183-191 | two refreshes send two refresh requests, whatever the first one stored |
| Session.GoodTokenReply | src/Drivers/QQ.php:79-88 | the body `access_token=T&refresh_token=R&expires_in=E` decodes to its three entries |
| Session.FirstGetToken | src/Drivers/QQ.php:44-71 | a first `getToken` against such a body returns T and stores T, R and the decoded reply, changing nothing else, even when T is "" or "0" |
| Session.FirstGetOpenId | src/Drivers/QQ.php:96-116 | with the token held and no open id, a first `getOpenId` against `callback( {"client_id":…,"openid":O} );` returns O and stores only O |
| Session.SignIn | src/Drivers/QQ.php:44-175 | `getToken`, `getOpenId` and `getUserInfo` in turn on a fresh driver send one request each and return T, O and `{uid: O, uname: nickname, avatar: figureurl_qq_2, email: ""}` |
| Session.ColdGetUserInfo | src/Drivers/QQ.php:141-159 | `getUserInfo` alone on a fresh driver sends the token, "me" and user-info requests, in that order, and returns the record for O |

## Left out

- `authorize` and `redirect` are left out. They only build a redirect URL.
- `DriverBase` is not part of this model. Its pieces are handled as follows:
  - `get` becomes the `Env` reply oracle.
  - `getCode` becomes the `Env` code.
  - `config` is an assumption: each reply key `appid`, `secret`, `redirect_uri`, `state`, `access_token`, `refresh_token` or `openid` overwrites the field of the same name, and other keys are ignored.
  - The fields `_state`, `_refresh_token` and `_user_info` are declared there. `_refresh_token` and `_user_info` start as null; `_state` starts as the configured state, a parameter of `Init`.
- `json_decode` is an arbitrary function from text to `Value`. The JSON grammar is not modelled.
- Floats are not modelled among the PHP values.
- PHP arrays are keyed by their string form. The integer normalisation of numeric keys (`"1"` becomes `1`) is not modelled.
- `print_r($res, true)` is modelled only for a string body, where it is the body itself.
- Request headers (`Accept: application/json`) are not modelled. They do not affect the driver's logic.
- The `$lang` argument of `getUserInfo` is left out. The method never uses it.
- QQ.RefreshToken: takes the refresh reply as already decoded, because the code indexes it as an array and, unlike `getToken`, does not pass it through `_parse`. What `get` returns for that endpoint is decided inside `DriverBase`.
- Php.Substr: follows PHP 8. PHP 7 returns `false` in the out-of-range cases, and `trim(false)` is "" too, so the unwrap's result is the same.
- Php.Substr: counts characters where PHP counts bytes. The two agree on byte strings (`IsBytes`), which are the only strings PHP holds. A model string with a character above 255, such as a literal `ä` standing in for its two UTF-8 bytes, is no PHP string, and on it the offsets are not PHP's.
- Php.SubstrDropBothEnds: its k and j are characters. They are PHP's bytes only when the string is a byte string (`IsBytes`).
- Wire.UnwrapShape: its 9 and 2 are characters. They are PHP's bytes only when the reply is a byte string (`IsBytes`). With a literal `ä` in the first nine characters, PHP would start one character earlier.
- QQ.GetUserInfo: follows the code, which stores the normalized record on every successful fetch through `_formatUserInfo`. That record always has four entries, so the guard of the next call always sees it. No memoization gap remains to model.

=== FILE: driver.dfy ===
/** The QQ driver as a state machine. The driver object becomes an immutable
    record, and every public call a function from (record, environment) to a
    Step: the record afterwards, the HTTP requests issued in order, and the
    returned value or the thrown exception's message.

    A thrown exception does not roll back the object: whatever an inner call
    (`getToken` inside `getOpenId`, say) stored before the throw stays stored, so
    a failed Step still carries the record as it then stands. */
module QQ {
  import opened Php
  import opened Wire

  const BaseUrl: string := "https://graph.qq.com/"
  const TokenPath: string := "oauth2.0/token"
  const MePath: string := "oauth2.0/me"
  const UserInfoPath: string := BaseUrl + "user/get_user_info"

  /** The message `getOpenId` throws when the unwrapped reply is not an array;
      `print_r($res, true)` of a string is the string itself. */
  const OpenIdErrorPrefix: string :=
    "get openid response error, the original data returned from remote is :"

  /** One HTTP GET the driver issues: the endpoint path and the query. */
  datatype Request = Request(path: string, query: map<string, Value>)

  /** Everything outside the driver: the authorization code `getCode()` delivers,
      the provider's replies to `get` (raw text for the token and open-id
      endpoints, a decoded array for the user-info reply and the refresh reply),
      and `json_decode($s, true)`, which yields null for text that is not JSON. */
  datatype Env = Env(
    code: Value,
    text: Request -> string,
    data: Request -> map<string, Value>,
    json: string -> Value)

  /** The driver's fields: credentials, session state, the normalized user record
      (`_user_info`) and the raw replies cached by stage (`_response`). */
  datatype Driver = Driver(
    appid: Value,
    secret: Value,
    redirectUri: Value,
    state: Value,
    accessToken: Value,
    refreshToken: Value,
    openid: Value,
    userInfo: Value,
    response: map<string, map<string, Value>>)

  datatype Result<T> = Ok(value: T) | Fail(message: string)

  /** The outcome of one public call. */
  datatype Step<T> = Step(drv: Driver, sent: seq<Request>, out: Result<T>)

  /** A freshly configured driver: credentials set, nothing fetched yet. */
  function Init(appid: Value, secret: Value, redirectUri: Value, state: Value): (d: Driver)
    ensures d.appid == appid && d.secret == secret && d.redirectUri == redirectUri && d.state == state
    ensures !Truthy(d.accessToken) && !Truthy(d.refreshToken) && !Truthy(d.openid)
    ensures !Truthy(d.userInfo) && d.response == map[]
  {
    Driver(appid, secret, redirectUri, state, Null, Null, Null, Null, map[])
  }

  /** The value a reply gives for a field, or the field's current value. */
  function Merged(m: map<string, Value>, key: string, current: Value): Value {
    if key in m then m[key] else current
  }

  /** The reply keys `config` copies into fields. */
  const ConfigKeys: set<string> :=
    {"appid", "secret", "redirect_uri", "state", "access_token", "refresh_token", "openid"}

  /** `config($res)`, assumed: each known key of the reply overwrites the field of
      the same name; other keys are ignored. The stage cache and the user record
      are never touched. */
  function Config(d: Driver, m: map<string, Value>): (r: Driver)
    ensures r.userInfo == d.userInfo && r.response == d.response
    ensures r.appid == Merged(m, "appid", d.appid) && r.secret == Merged(m, "secret", d.secret)
    ensures r.redirectUri == Merged(m, "redirect_uri", d.redirectUri)
    ensures r.state == Merged(m, "state", d.state)
    ensures r.accessToken == Merged(m, "access_token", d.accessToken)
    ensures r.refreshToken == Merged(m, "refresh_token", d.refreshToken)
    ensures r.openid == Merged(m, "openid", d.openid)
    ensures m.Keys !! ConfigKeys ==> r == d
  {
    d.(appid := Merged(m, "appid", d.appid),
       secret := Merged(m, "secret", d.secret),
       redirectUri := Merged(m, "redirect_uri", d.redirectUri),
       state := Merged(m, "state", d.state),
       accessToken := Merged(m, "access_token", d.accessToken),
       refreshToken := Merged(m, "refresh_token", d.refreshToken),
       openid := Merged(m, "openid", d.openid))
  }

  // ---------------------------------------------------------------------------
  // requests

  /** The authorization-code exchange; `state` is sent only when not empty. */
  function TokenRequest(d: Driver, code: Value): (q: Request)
    ensures q.path == TokenPath
    ensures "grant_type" in q.query && q.query["grant_type"] == Str("authorization_code")
    ensures "code" in q.query && q.query["code"] == code
    ensures "state" in q.query <==> Truthy(d.state)
  {
    var base := map[
      "client_id" := d.appid,
      "client_secret" := d.secret,
      "code" := code,
      "grant_type" := Str("authorization_code"),
      "redirect_uri" := d.redirectUri];
    Request(TokenPath, if Truthy(d.state) then base["state" := d.state] else base)
  }

  /** The open-id request: the token alone. */
  function MeRequest(token: Value): (q: Request)
    ensures q.path == MePath && q.query.Keys == {"access_token"}
    ensures q.query["access_token"] == token
  {
    Request(MePath, map["access_token" := token])
  }

  /** The user-info request, on the full URL: the token, the app id as consumer
      key, and the open id. */
  function UserRequest(token: Value, appid: Value, openid: Value): (q: Request)
    ensures q.path == UserInfoPath && q.query.Keys == {"access_token", "oauth_consumer_key", "openid"}
    ensures q.query["access_token"] == token && q.query["oauth_consumer_key"] == appid
    ensures q.query["openid"] == openid
  {
    Request(UserInfoPath, map[
      "access_token" := token,
      "oauth_consumer_key" := appid,
      "openid" := openid])
  }

  /** The refresh request goes to the token endpoint with the app id (as `appid`,
      not `client_id`), `grant_type=refresh_token` and the held refresh token;
      no secret is sent. */
  function RefreshRequest(d: Driver): (q: Request)
    ensures q.path == TokenPath && q.query.Keys == {"appid", "grant_type", "refresh_token"}
    ensures q.query["appid"] == d.appid && q.query["grant_type"] == Str("refresh_token")
    ensures q.query["refresh_token"] == d.refreshToken
  {
    Request(TokenPath, map[
      "appid" := d.appid,
      "grant_type" := Str("refresh_token"),
      "refresh_token" := d.refreshToken])
  }

  /** The user-info reply cached in `a`, if any, is still cached in `b`. */
  predicate KeepsUserReply(a: Driver, b: Driver) {
    "user" in a.response ==> "user" in b.response && b.response["user"] == a.response["user"]
  }

  // ---------------------------------------------------------------------------
  // getToken

  /** `getToken()`: returns the cached token without a request; otherwise issues
      exactly one token request, decodes the body with `_parse`, and either
      throws on an error code before storing anything, or caches the decoded
      reply under "token", merges it into the fields and returns the token. */
  function GetToken(d: Driver, env: Env): (r: Step<Value>)
    ensures Truthy(d.accessToken) ==> r == Step(d, [], Ok(d.accessToken))
    ensures !Truthy(d.accessToken) ==> r.sent == [TokenRequest(d, env.code)]
    ensures r.out.Fail? <==>
              !Truthy(d.accessToken) && HasError(Parse(env.text(TokenRequest(d, env.code))))
    ensures r.out.Fail? ==> r.drv == d
    ensures r.out.Fail? ==>
              CheckError(Parse(env.text(TokenRequest(d, env.code)))) == Raise(r.out.message)
    ensures r.out.Ok? ==> r.out.value == r.drv.accessToken
    ensures r.drv.userInfo == d.userInfo && KeepsUserReply(d, r.drv)
    ensures r.drv.openid == d.openid || "openid" in Parse(env.text(TokenRequest(d, env.code)))
    ensures r.out.Ok? && !Truthy(d.accessToken) ==>
              var res := Parse(env.text(TokenRequest(d, env.code)));
              && r.drv == Config(d.(response := d.response["token" := res]), res)
              && r.drv.response == d.response["token" := res]
              && r.drv.accessToken == Merged(res, "access_token", d.accessToken)
              && r.drv.refreshToken == Merged(res, "refresh_token", d.refreshToken)
  {
    if Truthy(d.accessToken) then Step(d, [], Ok(d.accessToken))
    else
      var req := TokenRequest(d, env.code);
      var res := Parse(env.text(req));
      match CheckError(res)
      case Raise(msg) => Step(d, [req], Fail(msg))
      case Pass =>
        var d' := Config(d.(response := d.response["token" := res]), res);
        Step(d', [req], Ok(d'.accessToken))
  }

  // ---------------------------------------------------------------------------
  // getOpenId

  /** The open-id stage of `getOpenId()`, once the token is known: one request,
      then the reply unwrapped from its callback and decoded. A reply that is not
      an array, or that carries an error code, throws before anything is stored;
      otherwise the reply is merged into the fields and the open id returned. */
  function FetchOpenId(d: Driver, token: Value, env: Env): (r: Step<Value>)
    ensures r.sent == [MeRequest(token)]
    ensures var body := env.text(MeRequest(token));
            var data := env.json(Unwrap(body));
            && (!data.Arr? ==> r.out == Fail(OpenIdErrorPrefix + body))
            && (r.out.Fail? <==> !data.Arr? || HasError(data.entries))
            && (r.out.Ok? ==> r.out == Ok(Merged(data.entries, "openid", d.openid)))
            && (r.out.Fail? && data.Arr? ==> CheckError(data.entries) == Raise(r.out.message))
    ensures r.out.Fail? ==> r.drv == d
    ensures r.out.Ok? ==> r.out.value == r.drv.openid
    ensures r.out.Ok? ==> r.drv == Config(d, env.json(Unwrap(env.text(MeRequest(token)))).entries)
    ensures r.drv.userInfo == d.userInfo && r.drv.response == d.response
  {
    var req := MeRequest(token);
    var body := env.text(req);
    var data := env.json(Unwrap(body));
    if !data.Arr? then Step(d, [req], Fail(OpenIdErrorPrefix + body))
    else
      match CheckError(data.entries)
      case Raise(msg) => Step(d, [req], Fail(msg))
      case Pass =>
        var d' := Config(d, data.entries);
        Step(d', [req], Ok(d'.openid))
  }

  /** `getOpenId()`: returns the cached open id without a request; otherwise
      obtains the token (which may itself fetch) and runs the open-id stage with
      it. A failure of either leaves the open id unset. */
  function GetOpenId(d: Driver, env: Env): (r: Step<Value>)
    ensures Truthy(d.openid) ==> r == Step(d, [], Ok(d.openid))
    ensures !Truthy(d.openid) ==>
              var t := GetToken(d, env);
              && (t.out.Fail? ==> r == Step(t.drv, t.sent, Fail(t.out.message)))
              && (t.out.Ok? ==> r.sent == t.sent + [MeRequest(t.out.value)])
              && (t.out.Ok? ==> var f := FetchOpenId(t.drv, t.out.value, env);
                                r.out == f.out && r.drv == f.drv)
    ensures r.out.Fail? ==> r.drv.openid == GetToken(d, env).drv.openid
    ensures r.out.Ok? ==> r.out.value == r.drv.openid
    ensures r.drv.userInfo == d.userInfo && KeepsUserReply(d, r.drv)
  {
    if Truthy(d.openid) then Step(d, [], Ok(d.openid))
    else
      var t := GetToken(d, env);
      if t.out.Fail? then Step(t.drv, t.sent, Fail(t.out.message))
      else
        var f := FetchOpenId(t.drv, t.out.value, env);
        Step(f.drv, t.sent + f.sent, f.out)
  }

  // ---------------------------------------------------------------------------
  // getUserInfo and _formatUserInfo

  /** The keys of the normalized user record. */
  const UserRecordKeys: set<string> := {"uid", "uname", "avatar", "email"}

  /** `_response['user'][$key]`: a missing stage or key reads as null. */
  function UserField(d: Driver, key: string): Value {
    if "user" in d.response then Lookup(d.response["user"], key) else Null
  }

  /** The user record `r` is the one built from the open id and the cached
      "user" reply of `d`: uid is the open id, uname the nickname, avatar the
      100px QQ avatar, and the email is always empty. */
  predicate IsUserRecord(r: Value, d: Driver) {
    && r.Arr?
    && r.entries.Keys == UserRecordKeys
    && r.entries["uid"] == d.openid
    && r.entries["uname"] == UserField(d, "nickname")
    && r.entries["avatar"] == UserField(d, "figureurl_qq_2")
    && r.entries["email"] == Str("")
  }

  /** A user record is never empty, so `if (!$this->_user_info)` sees it as set. */
  lemma UserRecordIsTruthy(r: Value, d: Driver)
    ensures IsUserRecord(r, d) ==> Truthy(r)
  {
  }

  /** `_formatUserInfo()`: asks `getOpenId()` for the uid (it may fetch), then
      builds the record from the cached "user" reply, stores it and returns it. */
  function FormatUserInfo(d: Driver, env: Env): (r: Step<Value>)
    ensures r.out.Ok? ==> IsUserRecord(r.out.value, r.drv) && r.drv.userInfo == r.out.value
    ensures Truthy(d.openid) ==> r.sent == [] && r.out.Ok? && r.drv == d.(userInfo := r.out.value)
    ensures r.out.Fail? ==> r.drv.userInfo == d.userInfo
    ensures KeepsUserReply(d, r.drv)
    ensures var o := GetOpenId(d, env);
            && r.sent == o.sent
            && (o.out.Fail? ==> r.out == o.out && r.drv == o.drv)
            && (o.out.Ok? ==> r.out.Ok? && r.drv == o.drv.(userInfo := r.out.value))
  {
    var o := GetOpenId(d, env);
    if o.out.Fail? then Step(o.drv, o.sent, Fail(o.out.message))
    else
      var info := Arr(map[
        "uid" := o.out.value,
        "uname" := UserField(o.drv, "nickname"),
        "avatar" := UserField(o.drv, "figureurl_qq_2"),
        "email" := Str("")]);
      Step(o.drv.(userInfo := info), o.sent, Ok(info))
  }

  /** `getUserInfo()`: returns the cached record without a request; otherwise
      obtains the token and the open id (either may fetch), issues one user-info
      request, throws on an error code before caching anything, and otherwise
      caches the reply under "user" and returns the record `_formatUserInfo`
      stores. */
  function GetUserInfo(d: Driver, env: Env): (r: Step<Value>)
    ensures Truthy(d.userInfo) ==> r == Step(d, [], Ok(d.userInfo))
    ensures r.out.Ok? ==> Truthy(r.drv.userInfo) && r.drv.userInfo == r.out.value
    ensures r.out.Ok? && !Truthy(d.userInfo) ==> IsUserRecord(r.out.value, r.drv)
    ensures r.out.Fail? ==> r.drv.userInfo == d.userInfo
    ensures !Truthy(d.userInfo) ==>
              var t := GetToken(d, env);
              && (t.out.Fail? ==> r.out == t.out && r.drv == t.drv && r.sent == t.sent)
              && (t.out.Ok? ==>
                    var o := GetOpenId(t.drv, env);
                    && (o.out.Fail? ==> r.out == o.out && r.drv == o.drv && r.sent == t.sent + o.sent)
                    && (o.out.Ok? ==>
                          var req := UserRequest(t.out.value, t.drv.appid, o.out.value);
                          var res := env.data(req);
                          && |r.sent| >= |t.sent + o.sent| + 1
                          && r.sent[..|t.sent + o.sent| + 1] == t.sent + o.sent + [req]
                          && (HasError(res) ==> r.sent == t.sent + o.sent + [req])
                          && (r.out.Ok? ==> "user" in r.drv.response && r.drv.response["user"] == res)
                          && (HasError(res) ==>
                                r.out.Fail? && r.drv == o.drv && CheckError(res) == Raise(r.out.message))
                          && (!HasError(res) && Truthy(o.out.value) ==> r.out.Ok?)))
  {
    if Truthy(d.userInfo) then Step(d, [], Ok(d.userInfo))
    else
      var t := GetToken(d, env);
      if t.out.Fail? then Step(t.drv, t.sent, Fail(t.out.message))
      else
        var appid := t.drv.appid;
        var o := GetOpenId(t.drv, env);
        if o.out.Fail? then Step(o.drv, t.sent + o.sent, Fail(o.out.message))
        else
          var req := UserRequest(t.out.value, appid, o.out.value);
          var res := env.data(req);
          var sent := t.sent + o.sent + [req];
          match CheckError(res)
          case Raise(msg) => Step(o.drv, sent, Fail(msg))
          case Pass =>
            var f := FormatUserInfo(o.drv.(response := o.drv.response["user" := res]), env);
            UserRecordIsTruthy(f.drv.userInfo, f.drv);
            Step(f.drv, sent + f.sent, f.out)
  }

  // ---------------------------------------------------------------------------
  // refreshToken

  /** `refreshToken()`: always issues exactly one refresh request, whatever is
      cached; throws on an error code before storing anything, and otherwise
      caches the reply under "refresh", merges it into the fields and returns the
      driver itself. */
  function RefreshToken(d: Driver, env: Env): (r: Step<Driver>)
    ensures r.sent == [RefreshRequest(d)]
    ensures r.out.Fail? <==> HasError(env.data(RefreshRequest(d)))
    ensures r.out.Fail? ==> r.drv == d
    ensures r.out.Fail? ==> CheckError(env.data(RefreshRequest(d))) == Raise(r.out.message)
    ensures r.out.Ok? ==> r.out.value == r.drv
    ensures r.out.Ok? ==>
              var res := env.data(RefreshRequest(d));
              && r.drv == Config(d.(response := d.response["refresh" := res]), res)
              && r.drv.response == d.response["refresh" := res]
              && r.drv.accessToken == Merged(res, "access_token", d.accessToken)
              && r.drv.refreshToken == Merged(res, "refresh_token", d.refreshToken)
              && r.drv.openid == Merged(res, "openid", d.openid)
    ensures r.drv.userInfo == d.userInfo
  {
    var req := RefreshRequest(d);
    var res := env.data(req);
    match CheckError(res)
    case Raise(msg) => Step(d, [req], Fail(msg))
    case Pass =>
      var d' := Config(d.(response := d.response["refresh" := res]), res);
      Step(d', [req], Ok(d'))
  }
}

=== FILE: php.dfy ===
/** The slice of PHP's runtime semantics that the QQ driver leans on: dynamically
    typed values, `empty()` and truthiness, string conversion for `.`, and the
    string functions `explode`, `trim` and `substr`. */
module Php {

  /** A PHP value as it reaches the driver: decoded JSON (`json_decode($s, true)`),
      the result of the driver's own `_parse`, or a field of the driver object.
      PHP arrays are keyed by their string form; floats are not modelled. */
  datatype Value =
    | Null
    | Bool(b: bool)
    | Int(i: int)
    | Str(s: string)
    | Arr(entries: map<string, Value>)

  /** `empty($v)`: true exactly for the falsy values. */
  predicate Empty(v: Value) {
    match v
    case Null => true
    case Bool(b) => !b
    case Int(i) => i == 0
    case Str(s) => s == "" || s == "0"
    case Arr(m) => |m| == 0
  }

  /** `if ($v)` / `!$v`: the negation of `empty`. */
  predicate Truthy(v: Value) {
    !Empty(v)
  }

  /** The falsy values of PHP listed one by one, as the language manual does. */
  lemma EmptyIsFalsyLiteral(v: Value)
    ensures Empty(v) <==>
              v == Null || v == Bool(false) || v == Int(0) ||
              v == Str("") || v == Str("0") || v == Arr(map[])
  {
  }

  /** `$m[$k]` on a PHP array: a missing key reads as null (with a notice). */
  function Lookup(m: map<string, Value>, k: string): Value {
    if k in m then m[k] else Null
  }

  // ---------------------------------------------------------------------------
  // String conversion, as performed by the `.` operator

  /** The character of decimal digit `d`. */
  function DigitChar(d: nat): (c: char)
    requires d < 10
  {
    ('0' as int + d) as char
  }

  function DigitValue(c: char): int {
    c as int - '0' as int
  }

  /** Decimal text of a natural number, most significant digit first, with no
      leading zero. */
  function NatText(n: nat): (s: string)
    ensures |s| >= 1
    ensures |s| == 1 || s[0] != '0'
    decreases n
  {
    if n < 10 then [DigitChar(n)] else NatText(n / 10) + [DigitChar(n % 10)]
  }

  /** The value a run of decimal digits denotes; the inverse of NatText. */
  function DigitsValue(s: string): int
    decreases |s|
  {
    if s == [] then 0 else 10 * DigitsValue(s[..|s| - 1]) + DigitValue(s[|s| - 1])
  }

  predicate AllDigits(s: string) {
    forall i | 0 <= i < |s| :: '0' <= s[i] <= '9'
  }

  /** A numeral as PHP prints it: one or more digits, without a leading zero
      unless the numeral is "0" itself. */
  predicate Decimal(s: string) {
    |s| >= 1 && AllDigits(s) && (|s| == 1 || s[0] != '0')
  }

  /** Reading back the decimal text of `n` gives `n`, and the text is a numeral
      without a leading zero. */
  lemma {:induction false} NatTextRoundTrip(n: nat)
    ensures Decimal(NatText(n))
    ensures DigitsValue(NatText(n)) == n
    decreases n
  {
    if n >= 10 {
      NatTextRoundTrip(n / 10);
      var s := NatText(n);
      assert s[..|s| - 1] == NatText(n / 10);
      assert s[|s| - 1] == DigitChar(n % 10);
    }
  }

  /** A numeral with a leading digit other than zero denotes a positive number. */
  lemma {:induction false} LeadingDigitPositive(s: string)
    requires |s| >= 1 && AllDigits(s) && s[0] != '0'
    ensures DigitsValue(s) >= 1
    decreases |s|
  {
    if |s| > 1 {
      LeadingDigitPositive(s[..|s| - 1]);
    }
  }

  /** Every number has exactly one numeral: a numeral without a leading zero is
      the decimal text of the number it denotes. */
  lemma {:induction false} DecimalUnique(s: string)
    requires Decimal(s)
    ensures DigitsValue(s) >= 0 && s == NatText(DigitsValue(s))
    decreases |s|
  {
    if |s| == 1 {
      assert s == [DigitChar(DigitValue(s[0]))];
    } else {
      var p := s[..|s| - 1];
      LeadingDigitPositive(p);
      DecimalUnique(p);
      var n := DigitsValue(s);
      assert n / 10 == DigitsValue(p) && n % 10 == DigitValue(s[|s| - 1]);
      assert s == p + [DigitChar(n % 10)];
    }
  }

  /** `(string)$i` for an integer: its numeral, after a minus sign when it is
      negative. */
  function IntText(i: int): (s: string)
    ensures i >= 0 ==> Decimal(s) && DigitsValue(s) == i
    ensures i < 0 ==> |s| >= 2 && s[0] == '-' && Decimal(s[1..]) && DigitsValue(s[1..]) == -i
  {
    if i < 0 then
      NatTextRoundTrip(-i);
      assert ("-" + NatText(-i))[1..] == NatText(-i);
      "-" + NatText(-i)
    else
      NatTextRoundTrip(i);
      NatText(i)
  }

  /** `(string)$v`: what `$v` contributes to a string concatenation. Only null,
      false and the empty string contribute nothing. */
  function Text(v: Value): (s: string)
    ensures s == [] <==> v == Null || v == Bool(false) || v == Str([])
    ensures v == Bool(true) ==> s == "1"
    ensures v.Int? && v.i >= 0 ==> Decimal(s) && DigitsValue(s) == v.i
    ensures v.Int? && v.i < 0 ==> s[0] == '-' && Decimal(s[1..]) && DigitsValue(s[1..]) == -v.i
    ensures v.Str? ==> s == v.s
    ensures v.Arr? ==> s == "Array"
  {
    match v
    case Null => ""
    case Bool(b) => if b then "1" else ""
    case Int(i) => IntText(i)
    case Str(s) => s
    case Arr(_) => "Array"
  }

  /** A value `empty()` rejects converts to a string `empty()` also rejects: its
      text is neither "" nor "0". */
  lemma TextOfTruthy(v: Value)
    requires Truthy(v)
    ensures Truthy(Str(Text(v)))
  {
  }

  // ---------------------------------------------------------------------------
  // explode

  /** `explode($sep, $s)` for a one-character separator: the maximal pieces of `s`
      between occurrences of `sep`. There is always at least one piece. */
  function Explode(sep: char, s: string): (parts: seq<string>)
    ensures |parts| >= 1
    decreases |s|
  {
    if s == [] then [[]]
    else
      var rest := Explode(sep, s[1..]);
      if s[0] == sep then [[]] + rest
      else [[s[0]] + rest[0]] + rest[1..]
  }

  /** `explode` yields a single piece exactly when the separator does not occur;
      that piece is then the whole string. */
  lemma ExplodeSingle(sep: char, s: string)
    ensures |Explode(sep, s)| == 1 <==> sep !in s
    ensures sep !in s ==> Explode(sep, s) == [s]
  {
    if sep !in s {
      ExplodePrefix(sep, s, []);
      assert s + [] == s;
    } else if |Explode(sep, s)| == 1 {
      ImplodeExplode(sep, s);
      ExplodePiecesFree(sep, s);
      assert false;
    }
  }

  /** No piece of `explode` contains the separator. */
  lemma {:induction false} ExplodePiecesFree(sep: char, s: string)
    ensures forall i | 0 <= i < |Explode(sep, s)| :: sep !in Explode(sep, s)[i]
    decreases |s|
  {
    if s != [] {
      ExplodePiecesFree(sep, s[1..]);
      var rest := Explode(sep, s[1..]);
      if s[0] != sep {
        assert sep !in [s[0]] + rest[0];
      }
    }
  }

  /** `implode($sep, $parts)`: the inverse of Explode. */
  function Implode(sep: char, parts: seq<string>): (s: string)
    requires |parts| >= 1
    decreases |parts|
  {
    if |parts| == 1 then parts[0] else parts[0] + [sep] + Implode(sep, parts[1..])
  }

  /** Joining the pieces of `s` with the separator gives back `s`. */
  lemma {:induction false} ImplodeExplode(sep: char, s: string)
    ensures Implode(sep, Explode(sep, s)) == s
    decreases |s|
  {
    if s != [] {
      var rest := Explode(sep, s[1..]);
      ImplodeExplode(sep, s[1..]);
      if s[0] == sep {
        assert Explode(sep, s) == [[]] + rest;
        assert ([[]] + rest)[1..] == rest;
      } else {
        var parts := Explode(sep, s);
        assert parts == [[s[0]] + rest[0]] + rest[1..];
        if |rest| == 1 {
          assert parts == [[s[0]] + rest[0]];
        } else {
          assert parts[1..] == rest[1..];
          assert Implode(sep, rest) == rest[0] + [sep] + Implode(sep, rest[1..]);
        }
      }
    }
  }

  /** A separator-free prefix is glued onto the first piece of what follows. */
  lemma {:induction false} ExplodePrefix(sep: char, p: string, t: string)
    requires sep !in p
    ensures Explode(sep, p + t) ==
              [p + Explode(sep, t)[0]] + Explode(sep, t)[1..]
    decreases |p|
  {
    if p != [] {
      ExplodePrefix(sep, p[1..], t);
      assert (p + t)[1..] == p[1..] + t;
      assert (p + t)[0] == p[0];
      assert [p[0]] + (p[1..] + Explode(sep, t)[0]) == p + Explode(sep, t)[0];
    } else {
      assert p + t == t;
      var e := Explode(sep, t);
      assert p + e[0] == e[0];
      assert [e[0]] + e[1..] == e;
    }
  }

  /** Splitting a join of separator-free pieces gives back the pieces. */
  lemma {:induction false} ExplodeImplode(sep: char, parts: seq<string>)
    requires |parts| >= 1
    requires forall i | 0 <= i < |parts| :: sep !in parts[i]
    ensures Explode(sep, Implode(sep, parts)) == parts
    decreases |parts|
  {
    if |parts| == 1 {
      ExplodePrefix(sep, parts[0], []);
      assert parts[0] + [] == parts[0];
    } else {
      var tail := Implode(sep, parts[1..]);
      ExplodeImplode(sep, parts[1..]);
      assert Explode(sep, [sep] + tail) == [[]] + parts[1..];
      ExplodePrefix(sep, parts[0], [sep] + tail);
      assert parts[0] + [sep] + tail == parts[0] + ([sep] + tail);
      assert parts[0] + [] == parts[0];
      assert [parts[0]] + parts[1..] == parts;
    }
  }

  // ---------------------------------------------------------------------------
  // trim

  /** The characters `trim` strips by default: space, tab, line feed, carriage
      return, NUL and vertical tab. */
  predicate IsTrimChar(c: char) {
    c == ' ' || c == '\t' || c == '\n' || c == '\r' || c == 0 as char || c == 11 as char
  }

  predicate AllTrimChars(s: string) {
    forall i | 0 <= i < |s| :: IsTrimChar(s[i])
  }

  /** `ltrim($s)`: strips the leading trim characters. */
  function TrimLeft(s: string): (r: string)
    ensures |r| <= |s|
    ensures r == [] || !IsTrimChar(r[0])
    decreases |s|
  {
    if s != [] && IsTrimChar(s[0]) then TrimLeft(s[1..]) else s
  }

  /** `rtrim($s)`: strips the trailing trim characters. */
  function TrimRight(s: string): (r: string)
    ensures |r| <= |s|
    ensures r == [] || !IsTrimChar(r[|r| - 1])
    decreases |s|
  {
    if s != [] && IsTrimChar(s[|s| - 1]) then TrimRight(s[..|s| - 1]) else s
  }

  /** `ltrim($s)` is the longest suffix of `s` that does not start with a trim
      character: what it drops is trim characters only. */
  lemma {:induction false} TrimLeftMeaning(s: string)
    ensures var r := TrimLeft(s);
            && |r| <= |s| && r == s[|s| - |r|..]
            && AllTrimChars(s[..|s| - |r|])
            && (r == [] || !IsTrimChar(r[0]))
    decreases |s|
  {
    if s != [] && IsTrimChar(s[0]) {
      TrimLeftMeaning(s[1..]);
      var r := TrimLeft(s);
      assert s[1..][|s| - 1 - |r|..] == s[|s| - |r|..];
    }
  }

  /** `rtrim($s)` is the longest prefix of `s` that does not end with a trim
      character: what it drops is trim characters only. */
  lemma {:induction false} TrimRightMeaning(s: string)
    ensures var r := TrimRight(s);
            && |r| <= |s| && r == s[..|r|]
            && AllTrimChars(s[|r|..])
            && (r == [] || !IsTrimChar(r[|r| - 1]))
    decreases |s|
  {
    if s != [] && IsTrimChar(s[|s| - 1]) {
      var p := s[..|s| - 1];
      TrimRightMeaning(p);
      var r := TrimRight(s);
      assert p[..|r|] == s[..|r|];
      assert forall i | |r| <= i < |s| - 1 :: s[i] == p[i];
    }
  }

  /** `trim($s)`: a piece of `s` that neither starts nor ends with a trim
      character. */
  function Trim(s: string): (r: string)
    ensures |r| <= |s|
    ensures r == [] || (!IsTrimChar(r[0]) && !IsTrimChar(r[|r| - 1]))
  {
    TrimRightMeaning(TrimLeft(s));
    TrimRight(TrimLeft(s))
  }

  /** Leading trim characters in front of a string that does not start with one
      are exactly what `ltrim` removes. */
  lemma {:induction false} TrimLeftPadded(lead: string, x: string)
    requires AllTrimChars(lead)
    requires x == [] || !IsTrimChar(x[0])
    ensures TrimLeft(lead + x) == x
    decreases |lead|
  {
    if lead == [] {
      assert lead + x == x;
    } else {
      assert (lead + x)[1..] == lead[1..] + x;
      TrimLeftPadded(lead[1..], x);
    }
  }

  /** Trailing trim characters behind a string that does not end with one are
      exactly what `rtrim` removes. */
  lemma {:induction false} TrimRightPadded(x: string, trail: string)
    requires AllTrimChars(trail)
    requires x == [] || !IsTrimChar(x[|x| - 1])
    ensures TrimRight(x + trail) == x
    decreases |trail|
  {
    if trail == [] {
      assert x + trail == x;
    } else {
      assert (x + trail)[..|x + trail| - 1] == x + trail[..|trail| - 1];
      TrimRightPadded(x, trail[..|trail| - 1]);
    }
  }

  /** Trimming a string padded with trim characters around a core that neither
      starts nor ends with one gives the core back. */
  lemma TrimPadded(lead: string, core: string, trail: string)
    requires AllTrimChars(lead) && AllTrimChars(trail)
    requires core == [] || (!IsTrimChar(core[0]) && !IsTrimChar(core[|core| - 1]))
    ensures Trim(lead + core + trail) == core
  {
    if core == [] {
      assert lead + core + trail == lead + trail;
      TrimAllTrimChars(lead + trail);
    } else {
      assert lead + core + trail == lead + (core + trail);
      TrimLeftPadded(lead, core + trail);
      TrimRightPadded(core, trail);
    }
  }

  /** A string of trim characters only trims to nothing. */
  lemma TrimAllTrimChars(s: string)
    requires AllTrimChars(s)
    ensures Trim(s) == []
  {
    TrimLeftPadded(s, []);
    assert s + [] == s;
  }

  // ---------------------------------------------------------------------------
  // substr

  /** A PHP string is a string of bytes. The model writes it with one character
      per byte, so a string whose every character is below 256 is one PHP can
      hold, and only for such strings do character counts equal PHP's byte
      counts. A UTF-8 `ä` is written as its two bytes. */
  predicate IsBytes(s: string) {
    forall i | 0 <= i < |s| :: s[i] as int < 256
  }

  /** Where `substr($s, $start, ...)` starts reading, for a string of length `len`. */
  function SubstrOffset(len: nat, start: int): (o: nat)
    ensures o <= len
  {
    if start < 0 then (if len + start < 0 then 0 else len + start)
    else if start > len then len
    else start
  }

  /** `substr($s, $start, $length)` with PHP 8 semantics: a negative start counts
      from the end, a negative length leaves that many characters off the end, and
      every out-of-range case yields the empty string. (PHP 7 returns `false` in
      those cases, which every caller here trims to the empty string anyway.) */
  function Substr(s: string, start: int, length: int): (r: string)
    ensures var o := SubstrOffset(|s|, start); o + |r| <= |s| && r == s[o..o + |r|]
    ensures length >= 0 ==> |r| <= length
    ensures length < 0 ==> |r| <= |s| + length || r == []
  {
    var o := SubstrOffset(|s|, start);
    var n := if length < 0 then (|s| - o) + length
             else if length > |s| - o then |s| - o
             else length;
    if n <= 0 then [] else s[o..o + n]
  }

  /** The shape of `substr($s, $k, -$j)` for a non-negative `k` and a positive `j`:
      all but the first `k` and the last `j` characters, or nothing when the string
      is shorter than `k + j`. (A length of 0 is not "-0": it yields nothing.) */
  lemma SubstrDropBothEnds(s: string, k: int, j: int)
    requires 0 <= k && 0 < j
    ensures |s| >= k + j ==> Substr(s, k, -j) == s[k..|s| - j]
    ensures |s| < k + j ==> Substr(s, k, -j) == []
  {
  }
}

=== FILE: session.dfy ===
/** Properties of sequences of calls on one driver: what is fetched once and then
    served from the fields, what is always fetched, and a whole sign-in from a
    fresh driver. */
module Session {
  import opened Php
  import opened Wire
  import opened QQ

  // ---------------------------------------------------------------------------
  // single calls from a partly filled driver

  /** With the token already held, `getOpenId()` issues exactly the open-id
      request, carrying that token. */
  lemma GetOpenIdWithCachedToken(d: Driver, env: Env)
    requires !Truthy(d.openid) && Truthy(d.accessToken)
    ensures GetOpenId(d, env).sent == [MeRequest(d.accessToken)]
    ensures GetOpenId(d, env) == FetchOpenId(d, d.accessToken, env)
  {
  }

  /** With the token and the open id already held, `getUserInfo()` issues exactly
      the user-info request; an error reply leaves the driver as it was, and a
      good one is cached under "user" beside the new record, nothing else
      changing. */
  lemma GetUserInfoWithCachedIds(d: Driver, env: Env)
    requires !Truthy(d.userInfo) && Truthy(d.accessToken) && Truthy(d.openid)
    ensures var req := UserRequest(d.accessToken, d.appid, d.openid);
            var r := GetUserInfo(d, env);
            && r.sent == [req]
            && (r.out.Fail? <==> HasError(env.data(req)))
            && (r.out.Fail? ==> r.drv == d && CheckError(env.data(req)) == Raise(r.out.message))
            && (r.out.Ok? ==>
                  r.drv == d.(response := d.response["user" := env.data(req)], userInfo := r.out.value))
  {
  }

  /** `getUserInfo()` with no record held, once the token and a non-empty open id
      have been obtained (fetched or not): the requests those needed, then exactly
      the user-info request; an error reply throws with the driver as
      `getOpenId()` left it, and a good one is cached under "user" beside the new
      record. */
  lemma GetUserInfoAfterIds(d: Driver, env: Env)
    requires !Truthy(d.userInfo)
    requires GetToken(d, env).out.Ok?
    requires GetOpenId(GetToken(d, env).drv, env).out.Ok?
    requires Truthy(GetOpenId(GetToken(d, env).drv, env).out.value)
    ensures var t := GetToken(d, env);
            var o := GetOpenId(t.drv, env);
            var req := UserRequest(t.out.value, t.drv.appid, o.out.value);
            var r := GetUserInfo(d, env);
            && r.sent == t.sent + o.sent + [req]
            && (r.out.Fail? <==> HasError(env.data(req)))
            && (r.out.Fail? ==> r.drv == o.drv && CheckError(env.data(req)) == Raise(r.out.message))
            && (r.out.Ok? ==>
                  r.drv == o.drv.(response := o.drv.response["user" := env.data(req)], userInfo := r.out.value))
  {
  }

  /** With the token held but an open-id reply that leaves the open id empty,
      `getUserInfo()` asks for the open id twice: once for the query, and again
      inside `_formatUserInfo`, because the empty value is not memoized. */
  lemma EmptyOpenIdFetchedTwice(d: Driver, env: Env)
    requires !Truthy(d.userInfo) && Truthy(d.accessToken) && !Truthy(d.openid)
    requires var data := env.json(Unwrap(env.text(MeRequest(d.accessToken))));
             && data.Arr? && !HasError(data.entries) && "access_token" !in data.entries
             && !Truthy(Merged(data.entries, "openid", d.openid))
             && !HasError(env.data(UserRequest(d.accessToken, d.appid, Merged(data.entries, "openid", d.openid))))
    ensures var id := Merged(env.json(Unwrap(env.text(MeRequest(d.accessToken)))).entries, "openid", d.openid);
            GetUserInfo(d, env).sent ==
              [MeRequest(d.accessToken), UserRequest(d.accessToken, d.appid, id), MeRequest(d.accessToken)]
  {
    var o := GetOpenId(d, env);
    GetOpenIdWithCachedToken(d, env);
    var id := o.out.value;
    var req := UserRequest(d.accessToken, d.appid, id);
    var d2 := o.drv.(response := o.drv.response["user" := env.data(req)]);
    GetOpenIdWithCachedToken(d2, env);
    Concat3(MeRequest(d.accessToken), req, MeRequest(d.accessToken));
  }

  // ---------------------------------------------------------------------------
  // memoization across calls

  /** After a successful `getToken()`, a second call is served from the field
      exactly when the token obtained is not empty; an empty one (a reply without
      `access_token`, say) makes the next call fetch again. */
  lemma GetTokenMemo(d: Driver, env: Env, later: Env)
    requires GetToken(d, env).out.Ok?
    ensures var r := GetToken(d, env);
            GetToken(r.drv, later).sent == [] <==> Truthy(r.out.value)
    ensures var r := GetToken(d, env);
            Truthy(r.out.value) ==> GetToken(r.drv, later) == Step(r.drv, [], r.out)
  {
  }

  /** An empty token reply is not an error: `_parse` turns it into the single
      entry `"" => null`, which is cached, no field changes, the (still empty)
      token is returned, and the next `getToken()` fetches again. */
  lemma EmptyTokenReply(d: Driver, env: Env, later: Env)
    requires !Truthy(d.accessToken)
    requires env.text(TokenRequest(d, env.code)) == ""
    ensures var t := GetToken(d, env);
            && t.out == Ok(d.accessToken)
            && t.drv == d.(response := d.response["token" := map["" := Null]])
            && GetToken(t.drv, later).sent == [TokenRequest(t.drv, later.code)]
  {
    ParseBareItem("");
  }

  /** After a successful `getOpenId()`, a second call is served from the field
      exactly when the open id obtained is not empty. */
  lemma GetOpenIdMemo(d: Driver, env: Env, later: Env)
    requires GetOpenId(d, env).out.Ok?
    ensures var r := GetOpenId(d, env);
            GetOpenId(r.drv, later).sent == [] <==> Truthy(r.out.value)
    ensures var r := GetOpenId(d, env);
            Truthy(r.out.value) ==> GetOpenId(r.drv, later) == Step(r.drv, [], r.out)
  {
    var r := GetOpenId(d, env);
    if !Truthy(r.out.value) {
      var t := GetToken(r.drv, later);
      assert t.out.Ok? ==> GetOpenId(r.drv, later).sent == t.sent + [MeRequest(t.out.value)];
    }
  }

  /** After a successful `getUserInfo()`, every later call returns the same record
      without a request, whatever the provider would now answer. */
  lemma GetUserInfoMemo(d: Driver, env: Env, later: Env)
    requires GetUserInfo(d, env).out.Ok?
    ensures var r := GetUserInfo(d, env);
            GetUserInfo(r.drv, later) == Step(r.drv, [], r.out)
  {
  }

  // ---------------------------------------------------------------------------
  // refreshToken

  /** A successful refresh whose reply carries a non-empty token makes that the
      token later calls use, without a further token request. */
  lemma RefreshThenGetToken(d: Driver, env: Env, later: Env)
    requires RefreshToken(d, env).out.Ok?
    requires Truthy(Lookup(env.data(RefreshRequest(d)), "access_token"))
    ensures var r := RefreshToken(d, env);
            GetToken(r.drv, later) ==
              Step(r.drv, [], Ok(Lookup(env.data(RefreshRequest(d)), "access_token")))
  {
  }

  /** `refreshToken()` does not invalidate the user record: after it, succeeded
      or not, `getUserInfo()` still returns the record held before, without a
      request. */
  lemma RefreshKeepsUserInfo(d: Driver, env: Env, later: Env)
    requires Truthy(d.userInfo)
    ensures var r := RefreshToken(d, env);
            GetUserInfo(r.drv, later) == Step(r.drv, [], Ok(d.userInfo))
  {
  }

  /** Two refreshes issue two requests: the second is sent whatever the first
      stored. */
  lemma RefreshTwice(d: Driver, env: Env, later: Env)
    ensures var r := RefreshToken(d, env);
            RefreshToken(d, env).sent + RefreshToken(r.drv, later).sent ==
              [RefreshRequest(d), RefreshRequest(r.drv)]
  {
  }

  // ---------------------------------------------------------------------------
  // a whole sign-in

  /** The replies of a well-behaved provider for one sign-in: a token body of
      three plain pairs carrying a non-empty token, an open-id reply
      `callback( {...} );` around JSON that decodes to a client id and a
      non-empty open id, and an error-free user-info reply. */
  predicate GoodProvider(d0: Driver, env: Env, token: string, refresh: string, expires: string,
                         json: string, client: string, openid: string, user: map<string, Value>)
  {
    && PlainPair(("access_token", token))
    && PlainPair(("refresh_token", refresh))
    && PlainPair(("expires_in", expires))
    && Truthy(Str(token)) && Truthy(Str(openid))
    && env.text(TokenRequest(d0, env.code)) ==
         Encode([("access_token", token), ("refresh_token", refresh), ("expires_in", expires)])
    && (json == [] || (!IsTrimChar(json[0]) && !IsTrimChar(json[|json| - 1])))
    && env.text(MeRequest(Str(token))) == "callback( " + json + " );"
    && env.json(json) == Arr(map["client_id" := Str(client), "openid" := Str(openid)])
    && !HasError(user)
    && env.data(UserRequest(Str(token), d0.appid, Str(openid))) == user
  }

  /** The token reply of a well-behaved provider decodes to its three pairs. */
  lemma GoodTokenReply(token: string, refresh: string, expires: string)
    requires PlainPair(("access_token", token))
    requires PlainPair(("refresh_token", refresh))
    requires PlainPair(("expires_in", expires))
    ensures Parse(Encode([("access_token", token), ("refresh_token", refresh), ("expires_in", expires)]))
         == map["access_token" := Str(token), "refresh_token" := Str(refresh), "expires_in" := Str(expires)]
  {
    var pairs := [("access_token", token), ("refresh_token", refresh), ("expires_in", expires)];
    ParseEncode(pairs);
    assert pairs[..2] == [pairs[0], pairs[1]] && pairs[..2][..1] == [pairs[0]];
    assert pairs[..2][..1][..0] == [];
    assert PairsMap([pairs[0]]) == map["access_token" := Str(token)];
    assert PairsMap(pairs[..2]) == map["access_token" := Str(token), "refresh_token" := Str(refresh)];
  }

  /** A first `getToken()` against a well-formed token reply: one request, and the
      token and refresh token stored beside the cached reply. The token may be
      empty or "0": it is stored and returned all the same. */
  lemma FirstGetToken(d: Driver, env: Env, token: string, refresh: string, expires: string)
    requires !Truthy(d.accessToken)
    requires PlainPair(("access_token", token))
    requires PlainPair(("refresh_token", refresh))
    requires PlainPair(("expires_in", expires))
    requires env.text(TokenRequest(d, env.code)) ==
               Encode([("access_token", token), ("refresh_token", refresh), ("expires_in", expires)])
    ensures var t := GetToken(d, env);
            && t.out == Ok(Str(token))
            && t.sent == [TokenRequest(d, env.code)]
            && t.drv == d.(accessToken := Str(token), refreshToken := Str(refresh),
                           response := d.response["token" := map[
                             "access_token" := Str(token),
                             "refresh_token" := Str(refresh),
                             "expires_in" := Str(expires)]])
  {
    GoodTokenReply(token, refresh, expires);
    var res := map["access_token" := Str(token), "refresh_token" := Str(refresh), "expires_in" := Str(expires)];
    ConfigTokenReply(d.(response := d.response["token" := res]), token, refresh, expires);
  }

  /** `config` of a three-pair token reply sets the token and the refresh token
      and nothing else. */
  lemma ConfigTokenReply(d: Driver, token: string, refresh: string, expires: string)
    ensures Config(d, map["access_token" := Str(token), "refresh_token" := Str(refresh),
                          "expires_in" := Str(expires)])
         == d.(accessToken := Str(token), refreshToken := Str(refresh))
  {
  }

  /** A first `getOpenId()` with the token held, against a reply `callback( {...} );`
      whose JSON decodes to a client id and a non-empty open id: one request, and
      only the open id stored. */
  lemma FirstGetOpenId(d: Driver, env: Env, json: string, client: string, openid: string)
    requires !Truthy(d.openid) && Truthy(d.accessToken)
    requires json == [] || (!IsTrimChar(json[0]) && !IsTrimChar(json[|json| - 1]))
    requires env.text(MeRequest(d.accessToken)) == "callback( " + json + " );"
    requires env.json(json) == Arr(map["client_id" := Str(client), "openid" := Str(openid)])
    ensures var o := GetOpenId(d, env);
            && o.out == Ok(Str(openid))
            && o.sent == [MeRequest(d.accessToken)]
            && o.drv == d.(openid := Str(openid))
  {
    UnwrapStandardReply(json);
    GetOpenIdWithCachedToken(d, env);
  }

  /** `getToken()`, `getOpenId()`, `getUserInfo()` in turn on a fresh driver: one
      request each, returning the token, the open id, and the record built from
      them and the user-info reply. */
  lemma SignIn(appid: Value, secret: Value, redirectUri: Value, state: Value, env: Env,
               token: string, refresh: string, expires: string,
               json: string, client: string, openid: string, user: map<string, Value>)
    requires GoodProvider(Init(appid, secret, redirectUri, state), env,
                          token, refresh, expires, json, client, openid, user)
    ensures var d0 := Init(appid, secret, redirectUri, state);
            var t := GetToken(d0, env);
            var o := GetOpenId(t.drv, env);
            var u := GetUserInfo(o.drv, env);
            && t.out == Ok(Str(token)) && t.sent == [TokenRequest(d0, env.code)]
            && o.out == Ok(Str(openid)) && o.sent == [MeRequest(Str(token))]
            && u.sent == [UserRequest(Str(token), appid, Str(openid))]
            && u.out == Ok(Arr(map[
                 "uid" := Str(openid),
                 "uname" := Lookup(user, "nickname"),
                 "avatar" := Lookup(user, "figureurl_qq_2"),
                 "email" := Str("")]))
  {
    var d0 := Init(appid, secret, redirectUri, state);
    FirstGetToken(d0, env, token, refresh, expires);
    var t := GetToken(d0, env);
    FirstGetOpenId(t.drv, env, json, client, openid);
    var o := GetOpenId(t.drv, env);
    GetUserInfoWithCachedIds(o.drv, env);
    var u := GetUserInfo(o.drv, env);
    assert IsUserRecord(u.out.value, u.drv);
    assert u.drv.response["user"] == user;
    assert u.out.value.entries.Keys == UserRecordKeys;
  }

  /** `getUserInfo()` alone on a fresh driver fetches the token, then the open id,
      then the user info: three requests in that order. */
  lemma ColdGetUserInfo(appid: Value, secret: Value, redirectUri: Value, state: Value, env: Env,
                        token: string, refresh: string, expires: string,
                        json: string, client: string, openid: string, user: map<string, Value>)
    requires GoodProvider(Init(appid, secret, redirectUri, state), env,
                          token, refresh, expires, json, client, openid, user)
    ensures var d0 := Init(appid, secret, redirectUri, state);
            var u := GetUserInfo(d0, env);
            && u.sent == [TokenRequest(d0, env.code), MeRequest(Str(token)),
                          UserRequest(Str(token), appid, Str(openid))]
            && u.out.Ok? && IsUserRecord(u.out.value, u.drv) && u.drv.openid == Str(openid)
  {
    var d0 := Init(appid, secret, redirectUri, state);
    FirstGetToken(d0, env, token, refresh, expires);
    var t := GetToken(d0, env);
    FirstGetOpenId(t.drv, env, json, client, openid);
    var o := GetOpenId(t.drv, env);
    assert t.out.value == Str(token) && t.drv.appid == appid && o.out.value == Str(openid);
    GetUserInfoAfterIds(d0, env);
    var req := UserRequest(Str(token), appid, Str(openid));
    Concat3(TokenRequest(d0, env.code), MeRequest(Str(token)), req);
  }

  /** Three one-request logs run one after another. */
  lemma Concat3(a: Request, b: Request, c: Request)
    ensures [a] + [b] + [c] == [a, b, c]
  {
  }
}

=== FILE: wire.dfy ===
/** The QQ provider's reply formats and the driver's one error rule: the
    `key=value&key=value` token body (`_parse`), the JSONP-wrapped open-id body,
    and `_checkError`. */
module Wire {
  import opened Php

  // ---------------------------------------------------------------------------
  // _parse

  /** `list($k, $v) = explode('=', $item)`: the key is the first `=`-segment, the
      text of the item up to its first `=` (or all of it). */
  function KeyOf(item: string): (k: string)
    ensures '=' !in k && k <= item
    ensures '=' !in item ==> k == item
  {
    ExplodePiecesFree('=', item);
    ImplodeExplode('=', item);
    ExplodeSingle('=', item);
    Explode('=', item)[0]
  }

  /** The value is the second `=`-segment; an item without `=` has none, and `list`
      then binds null. Any further segment is dropped. */
  function ValueOf(item: string): (v: Value)
    ensures v == Null <==> '=' !in item
    ensures v.Str? ==> '=' !in v.s
  {
    var segments := Explode('=', item);
    ExplodePiecesFree('=', item);
    ExplodeSingle('=', item);
    if |segments| >= 2 then Str(segments[1]) else Null
  }

  /** Item `i` is the last one of `items` that carries key `k`. */
  predicate LastWithKey(items: seq<string>, k: string, i: int) {
    && 0 <= i < |items|
    && KeyOf(items[i]) == k
    && forall j | i < j < |items| :: KeyOf(items[j]) != k
  }

  /** The keys of `data` are exactly the keys of the items. */
  ghost predicate KeysOfItems(items: seq<string>, data: map<string, Value>) {
    forall k :: k in data <==> exists i | 0 <= i < |items| :: KeyOf(items[i]) == k
  }

  /** The last item with a given key decides that key's value in `data`. */
  predicate LastItemWins(items: seq<string>, data: map<string, Value>) {
    forall i | 0 <= i < |items| && LastWithKey(items, KeyOf(items[i]), i) ::
      KeyOf(items[i]) in data && data[KeyOf(items[i])] == ValueOf(items[i])
  }

  /** The `foreach` of `_parse`: each item in turn writes `$data[$k] = $v`. */
  function ParseItems(items: seq<string>): map<string, Value>
    decreases |items|
  {
    if items == [] then map[]
    else
      var n := |items| - 1;
      ParseItems(items[..n])[KeyOf(items[n]) := ValueOf(items[n])]
  }

  /** The keys the `foreach` produces are exactly those of the items. */
  lemma {:induction false} ParseItemsKeys(items: seq<string>)
    ensures KeysOfItems(items, ParseItems(items))
    decreases |items|
  {
    if items != [] {
      var n := |items| - 1;
      ParseItemsKeys(items[..n]);
      assert forall i | 0 <= i < n :: items[..n][i] == items[i];
    }
  }

  /** Each key the `foreach` produces holds the value of the last item that
      carries it. */
  lemma {:induction false} ParseItemsLastWins(items: seq<string>)
    ensures LastItemWins(items, ParseItems(items))
    decreases |items|
  {
    if items != [] {
      var n := |items| - 1;
      var prefix := items[..n];
      ParseItemsLastWins(prefix);
      assert forall i | 0 <= i < n :: prefix[i] == items[i];
      assert LastWithKey(items, KeyOf(items[n]), n);
      assert forall k, i | k != KeyOf(items[n]) && LastWithKey(prefix, k, i) :: LastWithKey(items, k, i);
    }
  }

  /** `_parse($res)`: the token reply decoded item by item, the items being the
      `&`-separated pieces of the body. */
  function Parse(body: string): (data: map<string, Value>)
    ensures Truthy(Arr(data))
    ensures '&' !in body ==> data == map[KeyOf(body) := ValueOf(body)]
  {
    var items := Explode('&', body);
    ParseItemsKeys(items);
    assert KeyOf(items[0]) in ParseItems(items);
    ExplodeSingle('&', body);
    assert '&' !in body ==> ParseItems(items) == ParseItems([])[KeyOf(body) := ValueOf(body)];
    ParseItems(items)
  }

  /** What `_parse` yields: one entry per distinct key among the `&`-separated
      items, each holding the value of the last item with that key. */
  lemma ParseMeaning(body: string)
    ensures KeysOfItems(Explode('&', body), Parse(body))
    ensures LastItemWins(Explode('&', body), Parse(body))
  {
    ParseItemsKeys(Explode('&', body));
    ParseItemsLastWins(Explode('&', body));
  }

  /** An item `k=v` followed by nothing or by further `=`-segments has key `k` and
      value `v`: only the text between the first and the second `=` is kept. */
  lemma ItemSegments(k: string, v: string, rest: string)
    requires '=' !in k && '=' !in v
    requires rest == [] || rest[0] == '='
    ensures KeyOf(k + "=" + v + rest) == k
    ensures ValueOf(k + "=" + v + rest) == Str(v)
  {
    var item := k + "=" + v + rest;
    var tail := Explode('=', v + rest);
    ExplodePrefix('=', v, rest);
    assert rest == [] ==> Explode('=', rest) == [[]];
    assert rest != [] ==> Explode('=', rest)[0] == [];
    assert v + Explode('=', rest)[0] == v;
    assert tail[0] == v;
    assert Explode('=', "=" + (v + rest)) == [[]] + tail;
    ExplodePrefix('=', k, "=" + (v + rest));
    assert item == k + ("=" + (v + rest));
    assert k + [] == k;
  }

  /** A key/value pair written as a `k=v` item. */
  function ItemText(kv: (string, string)): string {
    kv.0 + "=" + kv.1
  }

  /** The items of a list of pairs. */
  function Items(pairs: seq<(string, string)>): seq<string> {
    seq(|pairs|, i requires 0 <= i < |pairs| => ItemText(pairs[i]))
  }

  /** A body written the way the provider writes the token reply. */
  function Encode(pairs: seq<(string, string)>): string
    requires |pairs| >= 1
  {
    Implode('&', Items(pairs))
  }

  /** Neither the key nor the value of a pair contains a delimiter. */
  predicate PlainPair(kv: (string, string)) {
    '&' !in kv.0 && '=' !in kv.0 && '&' !in kv.1 && '=' !in kv.1
  }

  /** The map a list of pairs stands for when later pairs override earlier ones. */
  function PairsMap(pairs: seq<(string, string)>): map<string, Value>
    decreases |pairs|
  {
    if pairs == [] then map[]
    else PairsMap(pairs[..|pairs| - 1])[pairs[|pairs| - 1].0 := Str(pairs[|pairs| - 1].1)]
  }

  /** Decoding the items of plain pairs gives the map they stand for. */
  lemma {:induction false} ParseItemsOfPairs(pairs: seq<(string, string)>)
    requires forall i | 0 <= i < |pairs| :: PlainPair(pairs[i])
    ensures ParseItems(Items(pairs)) == PairsMap(pairs)
    decreases |pairs|
  {
    if pairs != [] {
      var n := |pairs| - 1;
      var prefix := pairs[..n];
      ParseItemsOfPairs(prefix);
      assert Items(pairs)[..n] == Items(prefix);
      ItemSegments(pairs[n].0, pairs[n].1, "");
      assert pairs[n].0 + "=" + pairs[n].1 + "" == ItemText(pairs[n]);
    }
  }

  /** The round trip of `_parse`: a body built from plain pairs decodes to the map
      of those pairs, the last pair winning for a repeated key. */
  lemma ParseEncode(pairs: seq<(string, string)>)
    requires |pairs| >= 1
    requires forall i | 0 <= i < |pairs| :: PlainPair(pairs[i])
    ensures Parse(Encode(pairs)) == PairsMap(pairs)
  {
    var items := Items(pairs);
    forall i | 0 <= i < |items| ensures '&' !in items[i] {
      assert items[i] == pairs[i].0 + "=" + pairs[i].1;
    }
    ExplodeImplode('&', items);
    ParseItemsOfPairs(pairs);
  }

  /** The shape of the provider's token reply, `k1=v1&k2=v2` (for instance
      `a=1&b=2`), decodes to its two entries. */
  lemma ParseTwoPairs(k1: string, v1: string, k2: string, v2: string)
    requires PlainPair((k1, v1)) && PlainPair((k2, v2))
    ensures Parse(k1 + "=" + v1 + "&" + k2 + "=" + v2) == map[k1 := Str(v1), k2 := Str(v2)]
  {
    var first := k1 + "=" + v1;
    var second := k2 + "=" + v2;
    var items := [first, second];
    ExplodeImplode('&', items);
    assert Implode('&', items) == k1 + "=" + v1 + "&" + k2 + "=" + v2;
    ItemSegments(k1, v1, "");
    assert first + "" == first;
    ItemSegments(k2, v2, "");
    assert second + "" == second;
    assert items[..1] == [first] && items[..1][..0] == [];
    assert ParseItems([first]) == map[k1 := Str(v1)];
  }

  /** A repeated key keeps the value of its last item, and only the text between
      the first and second `=` of an item counts: `k=v1&k=v2=x` decodes to `k => v2`. */
  lemma ParseRepeatedKey(k: string, v1: string, v2: string, x: string)
    requires PlainPair((k, v1)) && PlainPair((k, v2)) && '&' !in x
    ensures Parse(k + "=" + v1 + "&" + k + "=" + v2 + "=" + x) == map[k := Str(v2)]
  {
    var first := k + "=" + v1;
    var second := k + "=" + v2 + ("=" + x);
    var items := [first, second];
    assert '&' !in second;
    ExplodeImplode('&', items);
    assert Implode('&', items) == k + "=" + v1 + "&" + k + "=" + v2 + "=" + x;
    ItemSegments(k, v1, "");
    assert first + "" == first;
    ItemSegments(k, v2, "=" + x);
    assert items[..1] == [first] && items[..1][..0] == [];
    assert ParseItems([first]) == map[k := Str(v1)];
  }

  /** A bare item without `=` maps its key to null. */
  lemma ParseBareItem(k: string)
    requires '&' !in k && '=' !in k
    ensures Parse(k) == map[k := Null]
  {
  }

  // ---------------------------------------------------------------------------
  // the open-id reply

  /** The open-id reply is `callback( {...} );`: nine bytes of prefix and two
      of suffix around the JSON text. */
  const CallbackPrefixLength: int := 9
  const CallbackSuffixLength: int := 2

  /** `trim(substr(trim($res), 9, -2))`: the JSON text inside the callback. */
  function Unwrap(body: string): (json: string)
    ensures json == [] || (|json| + 11 <= |body| && !IsTrimChar(json[0]) && !IsTrimChar(json[|json| - 1]))
  {
    SubstrDropBothEnds(Trim(body), CallbackPrefixLength, CallbackSuffixLength);
    Trim(Substr(Trim(body), CallbackPrefixLength, -CallbackSuffixLength))
  }

  /** Unwrap drops exactly nine leading and two trailing characters of the trimmed
      body, and yields nothing when the trimmed body is shorter than eleven. These
      are PHP's nine and two bytes when the body is a byte string (`IsBytes`). */
  lemma UnwrapShape(body: string)
    ensures var t := Trim(body);
            |t| >= 11 ==> Unwrap(body) == Trim(t[9..|t| - 2])
    ensures |Trim(body)| < 11 ==> Unwrap(body) == []
  {
  }

  /** Whatever trimmed JSON text sits between a nine-byte prefix and a
      two-byte suffix, padded with whitespace anywhere around them, Unwrap
      recovers it. The prefix and suffix are byte strings, so their lengths are
      the byte counts `substr` uses. */
  lemma UnwrapCallback(lead: string, prefix: string, pad1: string, json: string,
                       pad2: string, suffix: string, trail: string)
    requires |prefix| == 9 && |suffix| == 2 && IsBytes(prefix) && IsBytes(suffix)
    requires !IsTrimChar(prefix[0]) && !IsTrimChar(suffix[1])
    requires AllTrimChars(lead) && AllTrimChars(pad1) && AllTrimChars(pad2) && AllTrimChars(trail)
    requires json == [] || (!IsTrimChar(json[0]) && !IsTrimChar(json[|json| - 1]))
    ensures Unwrap(lead + prefix + pad1 + json + pad2 + suffix + trail) == json
  {
    var mid := pad1 + json + pad2;
    var core := prefix + mid + suffix;
    var body := lead + prefix + pad1 + json + pad2 + suffix + trail;
    assert body == lead + core + trail;
    assert core[0] == prefix[0] && core[|core| - 1] == suffix[1];
    TrimPadded(lead, core, trail);
    assert Trim(body) == core;
    SubstrDropBothEnds(core, 9, 2);
    assert core[9..|core| - 2] == mid;
    TrimPadded(pad1, json, pad2);
    assert Trim(mid) == json;
  }

  /** The reply as the provider formats it, `callback( ` + JSON + ` );`. */
  lemma UnwrapStandardReply(json: string)
    requires json == [] || (!IsTrimChar(json[0]) && !IsTrimChar(json[|json| - 1]))
    ensures Unwrap("callback( " + json + " );") == json
  {
    StandardReplyPieces();
    UnwrapCallback("", "callback(", " ", json, " ", ");", "");
    Regroup("callback(", " ", json, " ", ");");
  }

  /** The standard reply's literal prefix and suffix, split where UnwrapCallback
      needs them. */
  lemma StandardReplyPieces()
    ensures "callback(" + " " == "callback( " && " " + ");" == " );"
    ensures AllTrimChars(" ") && AllTrimChars("")
    ensures IsBytes("callback(") && IsBytes(");")
  {
  }

  /** Concatenation regrouped, with empty ends dropped. */
  lemma Regroup(a: string, b: string, j: string, c: string, d: string)
    ensures "" + a + b + j + c + d + "" == (a + b) + j + (c + d)
  {
  }

  /** A sample open-id reply. */
  lemma UnwrapExample(body: string)
    requires body == "callback( {\"openid\":\"O1\"} );"
    ensures Unwrap(body) == "{\"openid\":\"O1\"}"
  {
    var json := "{\"openid\":\"O1\"}";
    ExampleReplyPieces(body, json);
    UnwrapStandardReply(json);
  }

  /** The sample reply is the standard reply around its JSON text. */
  lemma ExampleReplyPieces(body: string, json: string)
    requires body == "callback( {\"openid\":\"O1\"} );"
    requires json == "{\"openid\":\"O1\"}"
    ensures "callback( " + json + " );" == body
    ensures !IsTrimChar(json[0]) && !IsTrimChar(json[|json| - 1])
  {
  }

  // ---------------------------------------------------------------------------
  // _checkError

  /** What `_checkError` does with a reply: return, or throw with a message. */
  datatype Check = Pass | Raise(message: string)

  /** The provider reports an error by a non-empty `error_code`. */
  predicate HasError(res: map<string, Value>) {
    "error_code" in res && !Empty(res["error_code"])
  }

  /** `_checkError($res)`: throws when `error_code` is not empty, with the message
      `error_code . ' : ' . error` (a missing `error` reads as null). */
  function CheckError(res: map<string, Value>): (c: Check)
    ensures c.Pass? <==> !HasError(res)
    ensures c.Raise? ==>
              && c.message == Text(res["error_code"]) + " : " + Text(Lookup(res, "error"))
              && Truthy(Str(Text(res["error_code"])))
  {
    if HasError(res) then
      TextOfTruthy(res["error_code"]);
      Raise(Text(res["error_code"]) + " : " + Text(Lookup(res, "error")))
    else Pass
  }

  /** The codes PHP counts as "no error": absent, null, false, 0, "", "0", []. */
  lemma CheckErrorPassesFalsyCodes(res: map<string, Value>)
    ensures CheckError(res) == Pass <==>
              "error_code" !in res ||
              res["error_code"] in {Null, Bool(false), Int(0), Str(""), Str("0"), Arr(map[])}
  {
  }

  /** A non-zero integer code throws with its numeral (after a minus sign when
      it is negative), then ` : `, then the description; the numeral has no
      leading zero and reads back to the code's magnitude. */
  lemma CheckErrorNumericCode(n: int, error: string)
    requires n != 0
    ensures var c := CheckError(map["error_code" := Int(n), "error" := Str(error)]);
            && c.Raise?
            && exists digits ::
                 && c.message == (if n < 0 then "-" else "") + digits + " : " + error
                 && Decimal(digits) && DigitsValue(digits) == (if n < 0 then -n else n)
  {
    var c := CheckError(map["error_code" := Int(n), "error" := Str(error)]);
    var t := IntText(n);
    if n < 0 {
      assert t == "-" + t[1..];
      assert c.message == "-" + t[1..] + " : " + error;
    } else {
      assert c.message == "" + t + " : " + error;
    }
  }

  /** A textual code throws with the code itself, then ` : `, then the description,
      or nothing after ` : ` when the reply carries no description or a null one. */
  lemma CheckErrorTextCode(res: map<string, Value>, code: string)
    requires "error_code" in res && res["error_code"] == Str(code)
    requires code != "" && code != "0"
    ensures "error" in res && res["error"].Str? ==>
              CheckError(res) == Raise(code + " : " + res["error"].s)
    ensures Lookup(res, "error") == Null ==> CheckError(res) == Raise(code + " : ")
  {
  }

  /** The codes that are neither strings nor integers: `true` prints as "1" and a
      non-empty array as "Array". */
  lemma CheckErrorOtherCodes(res: map<string, Value>)
    requires "error_code" in res
    ensures res["error_code"] == Bool(true) ==>
              CheckError(res) == Raise("1" + " : " + Text(Lookup(res, "error")))
    ensures res["error_code"].Arr? && res["error_code"].entries != map[] ==>
              CheckError(res) == Raise("Array" + " : " + Text(Lookup(res, "error")))
  {
  }
}
